=== FILE: README.md ===
# Todo-list API: account lifecycle and owner-scoped tasks, modelled in Dafny

This project models the two stateful parts of a small Express/Mongoose to-do
service.

- **Accounts and sessions** (`controllers/users.js`). A user collection is kept
  in natural order, and `findOne` returns its first match. Seven operations are
  pure transitions `Store × inputs → Store × Reply`: `signup`, `confirmEmail`,
  `login`, `forgotPassword`, `resetPassword`, `protect` and `logout`. The shared
  `createSendToken` step is modelled too. The `/logout` route is protect
  followed by logout.
- **Tasks** (`controllers/tasks.js`, `models/task.js`). The task collection is a
  map from `_id` to task. Every operation takes the caller's id, which the
  `protect` middleware supplies on every task route. Every lookup is filtered
  on `createdBy == caller`. The schema is modelled as a casting and validating
  function: `title` and `description` are required and trimmed, `timeStamp`
  has a default, and `createdBy` is hidden from reads.

Modules:

- `Wrappers`: Option and Result types.
- `Text`: JavaScript `trim` and `split(' ')`.
- `Errors`: the failure taxonomy.
- `Accounts`: the account record, its response view, first-match lookup and the
  collection invariant.
- `Auth`: the account operations.
- `AuthProperties`: lemmas that relate the account operations.
- `TaskSchema`: the task schema.
- `Tasks`: the task operations.
- `TaskProperties`: lemmas that relate the task operations.

External pieces are parameters, bundled in `Auth.Collaborators`:

- the sha256 digest;
- the user model's password hashing, password check and validators;
- JWT signing and verification.

The random plaintext tokens, generated ids, the clock `now` (milliseconds) and
whether sending an email threw are plain arguments.

Failures are either `AppError(message, status)`, with the exact messages and
statuses of the controllers, or `Thrown(cause)`. `Thrown` covers exceptions
that escape to the application's error middleware: validation errors,
duplicate keys, JWT verification failures and a `null` user dereference.

Behaviour of the code that is easy to misread:

- When the signup confirmation email fails, the handler force-activates the
  account and never sends a response. The model's reply is `Silent`.
- A reset-password mismatch is not a dedicated error. It is whatever the user
  model's validators report on `save()`. If they reject, nothing is saved and
  the reset token stays valid.
- A JWT verification failure in `protect` is an exception for the error
  middleware (`Thrown(TokenRejected)`), not one of the 401 `AppError`s.
- `createSendToken` blanks only `password`, `active`, `confirmEmailToken` and
  `loggedOut`. The response view therefore still carries `passwordResetToken`
  and `passwordResetExpires`.
- `forgotPassword` answers an unknown email with 401 "User does not exist".
  `getTask` answers a missing task with 400, while update and delete answer
  with 404.

## Model

| member | source | states |
|---|---|---|
| `Text.Trim` | models/task.js:7 | the result has no whitespace at either end and is no longer than the input |
| `Text.TrimAbsorbsPadding` | models/task.js:7 | any whitespace added around a string leaves its trimmed form unchanged |
| `Text.TrimIdempotent` | models/task.js:12 | trimming twice gives the same result as trimming once |
| `Text.TrimOfPadded` | models/task.js:7 | trimming a trimmed core with whitespace on both sides returns exactly that core |
| `Text.Split` | controllers/users.js:209 | `split(' ')` gives at least one piece, no piece contains a space, and joining the pieces with spaces rebuilds the input |
| `Text.SplitJoin` | controllers/users.js:209 | splitting undoes joining when no piece contains a space |
| `Accounts.FindFirst` | controllers/users.js:98 | `findOne` returns the first matching document, and returns none exactly when no document matches |
| `Accounts.View` | controllers/users.js:37-40 | a response shows the account's id, full name, email, role and both reset fields unchanged; password, activation, the confirmation digest and the logout flag are left out (the same blanking is at users.js:76-79), and `ViewHidesSecrets` shows nothing else is lost |
| `Accounts.FindByEmail` | controllers/users.js:98 | `findOne({ email })` finds the first account with exactly that email, and finds nothing exactly when no account has it; forgotPassword (users.js:114) and logout (users.js:238) use the same lookup |
| `Accounts.FindById` | controllers/users.js:222 | `findById` finds the first account with that id, and finds nothing exactly when no account has it |
| `Accounts.FindByConfirm` | controllers/users.js:186-188 | finds the first account whose pending confirmation digest is exactly the given one, and finds nothing exactly when no account holds it |
| `Accounts.FindByLiveReset` | controllers/users.js:158-161 | finds the first account holding the reset digest with an expiry strictly after `now`; an account with no expiry never matches the `$gt` filter; finds nothing exactly when no account qualifies |
| `Accounts.ViewHidesSecrets` | controllers/users.js:37-40 | two accounts have the same response view exactly when they differ at most in password, active, confirmEmailToken and loggedOut |
| `Auth.CreateSendToken` | controllers/users.js:31-49 | only the issuing account changes; its only change is `loggedOut := false`; the reply carries the token signed for its id and its blanked view |
| `Auth.Signup` | controllers/users.js:51-89 | validation and duplicate-key failures leave the store unchanged; otherwise exactly one account is appended, holding the new id, the email, the full name, the role, the hashed password and no reset token; if the mail was delivered the account is inactive with the token's digest pending and the reply carries its view and "Sign up succesful!! Please confirm your email"; if not it is active, has no pending digest, and no reply is sent |
| `Auth.Login` | controllers/users.js:91-111 | blank email or password gives 400 before any lookup; "Incorrect email or password" 401 is returned exactly when the password is not accepted for the first account with that email, including when there is no such account; the inactive 401 is returned exactly when the credentials pass on an inactive account; accepted credentials on an active account always give a session; success goes through createSendToken: only that account changes, only its loggedOut flag is cleared, and the reply is status 200 with the token signed for its id and its view; every failure leaves the store unchanged |
| `Auth.ForgotPassword` | controllers/users.js:112-150 | an unknown email gives 401 and no change; otherwise only the reset fields of that account change; on delivery they hold the token digest and `now` + 10 minutes; on delivery failure both are cleared and the reply is 500 |
| `Auth.ResetPassword` | controllers/users.js:151-177 | succeeds exactly when some account holds the token digest with an expiry after `now` and the new password passes validation; an unmatched or expired token gives 400 "Token is invalid or has expired"; a password the validators reject on save is thrown as `Invalid` with their messages; every failure leaves the store unchanged; success answers 200 "Password succesfully reset!! Proceed to login", changes only that account, replaces the password and clears the token and the expiry together |
| `Auth.ConfirmEmail` | controllers/users.js:179-200 | issues a session exactly when some account holds the token digest, and otherwise gives 400 "Token is invalid" with no change; success changes only that account: active, digest cleared, logged in, with its signed token returned |
| `Auth.BearerToken` | controllers/users.js:205-216 | a token is found only in a header that starts with `Bearer` and has a second word; the token is exactly that second space-separated piece, non-empty and space-free; a header with no space yields no token |
| `Auth.Protect` | controllers/users.js:202-235 | a missing or malformed header gives 401 NotLoggedIn; a token that fails verification is an exception; a verified id with no account gives 401 "The user no longer exists"; a logged-out account gives 401 NotLoggedIn; otherwise access is granted and the account returned is the first one with that id, taken from the store |
| `Auth.Logout` | controllers/users.js:237-248 | only the caller's account, found again by email, changes, and its only change is `loggedOut := true` |
| `Auth.LogoutRoute` | routes/users.js:20 | a protect failure is passed through unchanged; after a protect pass on a well-formed store, the authenticated account is found again by email, only its logout flag is set, no other account changes, and the reply is 200 "You have successfully logged out" |
| `AuthProperties.ConfirmTokenSingleUse` | controllers/users.js:186-196 | after a confirmation token has been used, presenting it again gives 400 "Token is invalid" |
| `AuthProperties.ResetTokenSingleUse` | controllers/users.js:158-169 | after a successful reset, the same token is rejected with 400 at any later time and with any password |
| `AuthProperties.ResetWithinLifetime` | controllers/users.js:119-133 | a reset token that was mailed works at any time before its ten minutes are over |
| `AuthProperties.ResetTokenExpires` | controllers/users.js:158-164 | once its ten minutes are over, a mailed reset token is rejected with 400, although its digest is still stored |
| `AuthProperties.SignupThenConfirm` | controllers/users.js:60-61 | the token mailed at signup confirms exactly the new account, activates it and signs a session for its id |
| `AuthProperties.SignupMailFailureForcesActivation` | controllers/users.js:84-88 | when the confirmation mail fails, the new account is active at once, no reply is sent, and the token it was given never confirms anything |
| `AuthProperties.LoginHidesWhichCredentialFailed` | controllers/users.js:98-102 | an unknown email and a wrong password produce identical replies and leave the store unchanged |
| `AuthProperties.BearerHeaderRoundTrip` | controllers/users.js:205-210 | `<scheme starting with Bearer> <token> ...` yields exactly that token |
| `AuthProperties.LogoutRevokesAccess` | controllers/users.js:227-231 | after the logout route, protect refuses with 401 every header whose token still verifies to that account |
| `AuthProperties.LoginRestoresAccess` | controllers/users.js:34 | after a successful login, the issued token passes protect again |
| `AuthProperties.SessionHeaderPasses` | controllers/users.js:219-234 | a token that verifies to an account that exists and is logged in passes protect and yields that account |
| `AuthProperties.LoginBeforeConfirm` | controllers/users.js:104-108 | logging in with the right password before confirming gives the inactive 401 |
| `AuthProperties.LoginFreshAccount` | controllers/users.js:95-110 | an active account added after all others, with an unused id and email, logs in with its password and the session token it receives passes protect |
| `AuthProperties.LoginAfterConfirm` | controllers/users.js:195-199 | after confirmation, logging in succeeds with a token for the new id, and that token passes protect |
| `AuthProperties.SessionLifecycle` | controllers/users.js:51-248 | signup, an early login, confirm, login, logout: the early login is refused as inactive, protect accepts the session until logout and refuses it with 401 afterwards |
| `AuthProperties.SignupPreservesWellFormed` | controllers/users.js:52-58 | signup keeps ids and emails unique and keeps each record consistent: no pending confirmation on an active account, reset digest and expiry present together |
| `AuthProperties.LoginPreservesWellFormed` | controllers/users.js:110 | login keeps the collection invariant |
| `AuthProperties.CreateSendTokenPreservesWellFormed` | controllers/users.js:34-35 | issuing a session keeps the collection invariant |
| `AuthProperties.ForgotPasswordPreservesWellFormed` | controllers/users.js:142-143 | forgotPassword sets or clears the reset digest and the expiry together, so the invariant holds |
| `AuthProperties.ResetPasswordPreservesWellFormed` | controllers/users.js:168-169 | resetPassword keeps the collection invariant |
| `AuthProperties.ConfirmEmailPreservesWellFormed` | controllers/users.js:195-196 | confirmEmail keeps the collection invariant |
| `AuthProperties.LogoutRoutePreservesWellFormed` | controllers/users.js:241 | logout keeps the collection invariant |
| `TaskSchema.CreateErrors` | models/task.js:4-13 | "must provide title" is reported exactly when the title is missing or blank after trimming, likewise "must provide description", and nothing else is reported |
| `TaskSchema.Create` | models/task.js:3-23 | a body is accepted exactly when both text fields are present and non-blank; the stored fields are their trimmed forms; an absent timestamp becomes the schema's default |
| `TaskSchema.UpdateErrors` | controllers/tasks.js:32-35 | an update is rejected for a field exactly when the patch sets that field to a blank value |
| `TaskSchema.Patch` | controllers/tasks.js:32 | the fields a patch carries are set, text fields trimmed; the fields it does not carry keep their values |
| `TaskSchema.PatchKeepsValid` | controllers/tasks.js:32-35 | a patch the validators accept keeps both text fields non-empty and trimmed |
| `TaskSchema.PatchIdempotent` | controllers/tasks.js:32 | applying a patch twice gives the same task as applying it once |
| `TaskSchema.View` | models/task.js:18-22 | a read shows the task's id, title, description and timestamp unchanged; `createdBy` is left out because the path is `select: false`, and `ViewHidesOwner` shows reads never depend on it |
| `TaskSchema.ViewHidesOwner` | models/task.js:18-22 | reads never depend on `createdBy` |
| `TaskSchema.DefaultTimeStampShared` | models/task.js:14-17 | every task created without a timestamp gets the same value, the one fixed when the schema was defined |
| `TaskSchema.CreateStripsPadding` | models/task.js:7 | whitespace around a title in the body does not reach the stored title |
| `Tasks.GetAllTasks` | controllers/tasks.js:7-13 | the result lists exactly the caller's tasks, as reads show them |
| `Tasks.CreateTask` | controllers/tasks.js:15-20 | succeeds exactly when both fields are provided and the id is new; the new task carries the trimmed title and description and the body's timestamp, or the schema default when it has none, and it is owned by the caller whatever `createdBy` the body claims; every existing task is unchanged; missing fields are thrown as `Invalid` with the schema's messages, an id already in use is thrown as a duplicate key, and a failure leaves the store unchanged |
| `Tasks.GetTask` | controllers/tasks.js:22-29 | returns a task exactly when it has this id and is the caller's; otherwise 400 |
| `Tasks.UpdateTaskAsWritten` | controllers/tasks.js:31-41 | invalid patches are rejected before the lookup; when the task is not the caller's, the reply is 404 and nothing changes; otherwise the update succeeds and the whole body, `createdBy` included, is applied to that task only |
| `Tasks.UpdateTask` | controllers/tasks.js:31-41 | succeeds exactly when the patch is valid and the task is the caller's; only that task changes, it becomes the task patched with the body minus `createdBy`, and it stays the caller's |
| `Tasks.DeleteTask` | controllers/tasks.js:43-50 | removes exactly the task with this id when it is the caller's, leaving all others unchanged; otherwise 404 and no change |
| `TaskProperties.GetTaskAgreesWithGetAll` | controllers/tasks.js:8-23 | getTask succeeds for an id exactly when getAllTasks lists it, and both show the same view |
| `TaskProperties.CreateThenGet` | controllers/tasks.js:16-23 | a created task can be read back by its creator and appears in the creator's list |
| `TaskProperties.CreateIgnoresClaimedOwner` | controllers/tasks.js:16 | a body that claims another owner leaves that user's list unchanged |
| `TaskProperties.DeleteThenGet` | controllers/tasks.js:44-47 | after a delete, reading the task fails with 400 and deleting it again gives 404 |
| `TaskProperties.UpdateIdempotent` | controllers/tasks.js:32 | repeating an update leaves the store as the first update left it |
| `TaskProperties.ForeignTaskUntouchable` | controllers/tasks.js:23-44 | no caller can read, update or delete a task that is not theirs |
| `TaskProperties.OthersListsUnchangedByCreate` | controllers/tasks.js:16-17 | one user's create leaves every other user's list unchanged |
| `TaskProperties.OthersListsUnchangedByUpdate` | controllers/tasks.js:32 | with the corrected update, one user's update leaves every other user's list unchanged |
| `TaskProperties.OthersListsUnchangedByDelete` | controllers/tasks.js:44 | one user's delete leaves every other user's list unchanged |
| `TaskProperties.UpdateVersionsAgree` | controllers/tasks.js:32 | the as-written and corrected updates agree when the patch names no other owner |
| `TaskProperties.UpdateAsWrittenReassignsOwner` | controllers/tasks.js:32 | as written, a patch with `createdBy: "bob"` moves alice's task into bob's list |
| `TaskProperties.CreatePreservesValid` | models/task.js:4-13 | create keeps every stored task's text fields non-empty and trimmed |
| `TaskProperties.UpdatePreservesValid` | controllers/tasks.js:34 | both versions of update keep every stored task's text fields non-empty and trimmed |
| `TaskProperties.DeletePreservesValid` | controllers/tasks.js:44 | delete keeps every stored task valid |

## Left out

- Email transport (`sendEmail`, nodemailer) and the confirm and reset URLs and
  message texts are not modelled. The model reduces sending to a boolean
  `delivered`. As written, `sendEmail` does not return the promise from
  `sendMail`, so only a synchronous throw can reach the `catch` blocks.
  `delivered = false` stands for such a throw.
- Cryptography is not modelled: sha256, JWT signing, JWT expiry and signature
  checks, and password hashing and checking. They are fields of
  `Auth.Collaborators`.
- `models/users.js` is not part of this model. Its validators are abstract
  error-list functions. The model assumes it creates accounts with
  `active = false` and `loggedOut = false`. Any schema default for `role` is
  not modelled: the role is stored as the form gives it, so an absent role
  stays absent in the account and its view. Its token helpers are modelled as
  storing the sha256 of a plaintext token given as an argument. The
  reset-token lifetime of ten minutes comes from the reset email's subject
  line.
- `Accounts.FindByEmail`: emails are compared exactly as stored. Emails are
  meant to be case-normalised, which would happen in `models/users.js`. That
  file is not part of this model and neither is the normalisation, so `"Jane@x.com"` and
  `"jane@x.com"` count as different emails. This affects the duplicate check
  in signup and the lookups in login, forgotPassword and logout.
- The HTTP status of exceptions is not modelled, because the application's
  error middleware is not part of this model.
- Mongoose persistence semantics are not modelled: concurrency and atomicity,
  `CastError` for malformed ids, an explicit `null` in a patch (treated like
  an absent field), non-string body values, and filter behaviour for an
  absent `email` in `forgotPassword` (the email is taken as given).
- The 404 branch of `getAllTasks` is not modelled as reachable, because
  `find` always yields an array.
- Response bodies are reduced to status, message, token and user view, and
  `catchAsync` plumbing is not modelled.
- `AuthProperties.ConfirmTokenSingleUse`: proved under
  `ConfirmDigestsDistinct`. Single use holds only while no two accounts hold
  the same digest. The controller relies on random tokens for this and does
  not enforce it.
- `AuthProperties.ResetTokenSingleUse`: proved under `ResetDigestsDistinct`,
  for the same reason.
- `AuthProperties.ResetTokenExpires`: assumes no other account held the same
  digest.
- `AuthProperties.LoginRestoresAccess`: assumes that JWT verification inverts
  signing and that a signed token is one space-free word.
- `AuthProperties.SessionLifecycle`: makes the same assumptions about JWT
  tokens as `LoginRestoresAccess`.
- `Auth.LogoutRoute`: the success half of its contract assumes the collection
  invariant (unique ids and emails). Without it, `logout` may find a
  different account by email than the one `protect` found by id.

## Findings

| source | as written | input that shows it | evidently intended | confidence | as-written member | corrected member |
|---|---|---|---|---|---|---|
| controllers/tasks.js:32 | `updateTask` passes the whole request body as the update, so a `createdBy` in it is applied (`createTask` overwrites it, `updateTask` does not) | alice owns task `t1` and sends PATCH `/t1` with a body whose `createdBy` is bob's id; the task leaves her list and appears in bob's | a task's owner is fixed at creation, so one user's requests never change another user's list | medium, not executed | `TaskProperties.UpdateAsWrittenReassignsOwner` (on `Tasks.UpdateTaskAsWritten`) | `Tasks.UpdateTask`, with `TaskProperties.OthersListsUnchangedByUpdate` |

=== FILE: accounts.dfy ===
/** The account record the authentication controller reads and writes, the
    collection that holds it, and the view of it that goes out in responses. */
module Accounts {
  import opened Wrappers

  /** One user document. `password` is the stored credential as the user model
      keeps it; the two token fields hold sha256 digests, never plaintext. */
  datatype Account = Account(
    id: string,
    fullName: string,
    email: string,
    role: Option<string>,
    password: string,
    active: bool,
    loggedOut: bool,
    confirmEmailToken: Option<string>,
    passwordResetToken: Option<string>,
    passwordResetExpires: Option<nat>)

  /** What a response carries of an account: everything except the fields the
      controller blanks before answering (password, active, confirmEmailToken,
      loggedOut). */
  datatype UserView = UserView(
    id: string,
    fullName: string,
    email: string,
    role: Option<string>,
    passwordResetToken: Option<string>,
    passwordResetExpires: Option<nat>)

  /** The account as responses show it: password, activation, the pending
      confirmation digest and the logout flag are blanked. */
  function View(a: Account): (v: UserView)
    ensures v.id == a.id && v.email == a.email && v.fullName == a.fullName && v.role == a.role
    ensures v.passwordResetToken == a.passwordResetToken
    ensures v.passwordResetExpires == a.passwordResetExpires
  {
    UserView(a.id, a.fullName, a.email, a.role, a.passwordResetToken, a.passwordResetExpires)
  }

  /** Two accounts that differ only in the blanked fields look the same. */
  predicate SameVisible(a: Account, b: Account) {
    && a.id == b.id && a.fullName == b.fullName && a.email == b.email && a.role == b.role
    && a.passwordResetToken == b.passwordResetToken
    && a.passwordResetExpires == b.passwordResetExpires
  }

  /** A response reveals nothing about password, activation, the pending
      confirmation digest or the logout flag: accounts that agree on every other
      field have the same view, and only such accounts do. */
  lemma ViewHidesSecrets(a: Account, b: Account)
    ensures View(a) == View(b) <==> SameVisible(a, b)
  {
  }

  /** The user collection in natural order, which is the order `findOne` scans. */
  type Store = seq<Account>

  /** The position of the first document that satisfies `matches`. */
  function FindFirst(s: Store, matches: Account -> bool): (r: Option<nat>)
    ensures r.Some? ==> r.value < |s| && matches(s[r.value])
    ensures r.Some? ==> forall j :: 0 <= j < r.value ==> !matches(s[j])
    ensures r.None? <==> forall j :: 0 <= j < |s| ==> !matches(s[j])
    decreases |s|
  {
    if |s| == 0 then None
    else if matches(s[0]) then Some(0)
    else match FindFirst(s[1..], matches)
      case None => None
      case Some(k) => Some(k + 1)
  }

  predicate HasEmail(a: Account, email: string) { a.email == email }
  predicate HasId(a: Account, id: string) { a.id == id }
  predicate HoldsConfirm(a: Account, digest: string) { a.confirmEmailToken == Some(digest) }

  /** `{ passwordResetToken: digest, passwordResetExpires: { $gt: now } }`: an
      absent expiry never compares greater. */
  predicate HoldsLiveReset(a: Account, digest: string, now: nat) {
    && a.passwordResetToken == Some(digest)
    && a.passwordResetExpires.Some? && a.passwordResetExpires.value > now
  }

  /** `i` is the first position whose account satisfies `p`. */
  ghost predicate FirstWith(s: Store, i: nat, p: Account -> bool) {
    i < |s| && p(s[i]) && forall j :: 0 <= j < i ==> !p(s[j])
  }

  function FindByEmail(s: Store, email: string): (r: Option<nat>)
    ensures r.Some? ==> FirstWith(s, r.value, a => HasEmail(a, email))
    ensures r.None? <==> forall j :: 0 <= j < |s| ==> !HasEmail(s[j], email)
  {
    FindFirst(s, a => HasEmail(a, email))
  }

  function FindById(s: Store, id: string): (r: Option<nat>)
    ensures r.Some? ==> FirstWith(s, r.value, a => HasId(a, id))
    ensures r.None? <==> forall j :: 0 <= j < |s| ==> !HasId(s[j], id)
  {
    FindFirst(s, a => HasId(a, id))
  }

  function FindByConfirm(s: Store, digest: string): (r: Option<nat>)
    ensures r.Some? ==> FirstWith(s, r.value, a => HoldsConfirm(a, digest))
    ensures r.None? <==> forall j :: 0 <= j < |s| ==> !HoldsConfirm(s[j], digest)
  {
    FindFirst(s, a => HoldsConfirm(a, digest))
  }

  function FindByLiveReset(s: Store, digest: string, now: nat): (r: Option<nat>)
    ensures r.Some? ==> FirstWith(s, r.value, a => HoldsLiveReset(a, digest, now))
    ensures r.None? <==> forall j :: 0 <= j < |s| ==> !HoldsLiveReset(s[j], digest, now)
  {
    FindFirst(s, a => HoldsLiveReset(a, digest, now))
  }

  /** The per-record invariant: a confirmation digest is pending only while the
      account is inactive, and the reset digest and its expiry are present together. */
  predicate AccountOk(a: Account) {
    && (a.confirmEmailToken.Some? ==> !a.active)
    && (a.passwordResetToken.Some? <==> a.passwordResetExpires.Some?)
  }

  /** The collection invariant: unique ids (`_id`), unique emails (the user
      model's unique index), and every record well formed. */
  predicate WellFormed(s: Store) {
    && (forall i, j :: 0 <= i < j < |s| ==> s[i].id != s[j].id)
    && (forall i, j :: 0 <= i < j < |s| ==> s[i].email != s[j].email)
    && (forall i :: 0 <= i < |s| ==> AccountOk(s[i]))
  }

  /** Rewriting one record in place keeps the invariant as long as the record keeps
      its id and email and stays well formed itself. */
  lemma ReplaceKeepsWellFormed(s: Store, t: Store, i: nat)
    requires WellFormed(s) && i < |s| && |t| == |s|
    requires forall j :: 0 <= j < |s| && j != i ==> t[j] == s[j]
    requires t[i].id == s[i].id && t[i].email == s[i].email && AccountOk(t[i])
    ensures WellFormed(t)
  {
    assert forall j :: 0 <= j < |s| ==> t[j].id == s[j].id && t[j].email == s[j].email;
  }

  /** No two accounts hold the same pending confirmation digest. Random tokens make
      this hold in practice; nothing in the controller enforces it. */
  predicate ConfirmDigestsDistinct(s: Store) {
    forall i, j :: 0 <= i < j < |s| && s[i].confirmEmailToken.Some? ==>
      s[i].confirmEmailToken != s[j].confirmEmailToken
  }

  /** No two accounts hold the same pending reset digest. */
  predicate ResetDigestsDistinct(s: Store) {
    forall i, j :: 0 <= i < j < |s| && s[i].passwordResetToken.Some? ==>
      s[i].passwordResetToken != s[j].passwordResetToken
  }
}

=== FILE: auth.dfy ===
/** The account and session lifecycle of the users controller: signup, email
    confirmation, login, password recovery, the bearer-token gate and logout, each
    a pure transition from a user collection to a new collection and a reply. */
module Auth {
  import opened Wrappers
  import opened Text
  import opened Accounts
  import opened Errors

  /** What `req.body` carries to signup. */
  datatype SignupForm = SignupForm(
    fullName: string,
    email: string,
    password: string,
    passwordConfirm: string,
    role: Option<string>)

  /** The pieces the controller calls but does not define: the sha256 hex digest,
      the user model's password hashing, checking and validators, and JWT signing
      and verification (a token that fails verification yields `None`). A validator
      returns its error messages, none meaning the document is accepted. */
  datatype Collaborators = Collaborators(
    sha256: string -> string,
    hashPassword: string -> string,
    correctPassword: (string, string) -> bool,
    signupErrors: SignupForm -> seq<string>,
    passwordErrors: (string, string) -> seq<string>,
    sign: string -> string,
    verify: string -> Option<string>)

  datatype Reply =
    | Session(status: nat, token: string, user: UserView)   // `createSendToken`
    | SignedUp(user: UserView, message: string)             // 200 after signup
    | Done(status: nat, message: string)                    // a status and a message
    | Error(failure: Failure)
    | Silent                                                // the handler never answers

  datatype Step = Step(store: Store, reply: Reply)

  const MissingCredentials := "Please provide email and password"
  const BadCredentials := "Incorrect email or password"
  const Inactive := "Inactive, check email for confirmation link"
  const UnknownUser := "User does not exist"
  const MailFailed := "There was an error sending the email. Try again later"
  const InvalidConfirm := "Token is invalid"
  const InvalidReset := "Token is invalid or has expired"
  const NotLoggedIn := "You are not logged in! Please log in to get access"
  const UserGone := "The user no longer exists"

  /** Lifetime of a password-reset token in milliseconds: ten minutes, as the
      reset email announces. */
  const ResetLifetime: nat := 10 * 60 * 1000

  /** `!value` in JavaScript for a string field: missing or empty. */
  predicate Blank(value: Option<string>) {
    value.None? || value.value == ""
  }

  /** Only position `i` may differ between the two collections. */
  predicate OnlyChanged(s: Store, s': Store, i: nat) {
    |s'| == |s| && forall j :: 0 <= j < |s| && j != i ==> s'[j] == s[j]
  }

  /** No account already uses this id or this email. */
  predicate Unclaimed(s: Store, id: string, email: string) {
    forall j :: 0 <= j < |s| ==> s[j].id != id && s[j].email != email
  }

  /** Issue a session token for the account at `i`: mark it logged in, save it,
      and answer with the signed token and the account with its secrets blanked. */
  function CreateSendToken(s: Store, i: nat, env: Collaborators, status: nat): (r: Step)
    requires i < |s|
    ensures OnlyChanged(s, r.store, i)
    ensures !r.store[i].loggedOut
    ensures r.store[i].(loggedOut := s[i].loggedOut) == s[i]
    ensures r.reply == Session(status, env.sign(s[i].id), View(s[i]))
  {
    var a := s[i].(loggedOut := false);
    Step(s[i := a], Session(status, env.sign(a.id), View(a)))
  }

  /** `signup`: create an inactive account holding the digest of a fresh
      confirmation token, then mail the token. If mailing throws, the account is
      activated without confirmation and the handler never answers.
      `newId` is the generated `_id`, `token` the generated plaintext token. */
  function Signup(s: Store, env: Collaborators, form: SignupForm, newId: string,
                  token: string, delivered: bool): (r: Step)
    ensures |env.signupErrors(form)| > 0 ==>
      r == Step(s, Error(Thrown(Invalid(env.signupErrors(form)))))
    ensures |env.signupErrors(form)| == 0 && !Unclaimed(s, newId, form.email) ==>
      r == Step(s, Error(Thrown(DuplicateKey)))
    ensures r.store == s || (|r.store| == |s| + 1 && r.store[..|s|] == s)
    ensures r.store != s <==> |env.signupErrors(form)| == 0 && Unclaimed(s, newId, form.email)
    ensures r.store != s ==>
      var a := r.store[|s|];
      && a.id == newId && a.email == form.email && a.password == env.hashPassword(form.password)
      && a.fullName == form.fullName && a.role == form.role
      && !a.loggedOut && a.passwordResetToken.None? && a.passwordResetExpires.None?
    ensures r.store != s && delivered ==>
      && !r.store[|s|].active
      && r.store[|s|].confirmEmailToken == Some(env.sha256(token))
      && r.reply == SignedUp(View(r.store[|s|]), "Sign up succesful!! Please confirm your email")
    ensures r.store != s && !delivered ==>
      && r.store[|s|].active && r.store[|s|].confirmEmailToken.None? && r.reply.Silent?
  {
    var errors := env.signupErrors(form);
    if |errors| > 0 then Step(s, Error(Thrown(Invalid(errors))))
    else if !Unclaimed(s, newId, form.email) then Step(s, Error(Thrown(DuplicateKey)))
    else
      var created := Account(newId, form.fullName, form.email, form.role,
                             env.hashPassword(form.password), false, false,
                             Some(env.sha256(token)), None, None);
      if delivered then
        Step(s + [created], SignedUp(View(created), "Sign up succesful!! Please confirm your email"))
      else
        Step(s + [created.(confirmEmailToken := None, active := true)], Silent)
  }

  /** The first account with this email exists and accepts this password. */
  predicate PasswordAccepted(s: Store, env: Collaborators, email: string, password: string) {
    match FindByEmail(s, email)
    case None => false
    case Some(i) => env.correctPassword(password, s[i].password)
  }

  /** `login`: both fields must be present; an unknown email and a wrong password
      are answered alike; only then is activation checked. */
  function Login(s: Store, env: Collaborators, email: Option<string>, password: Option<string>): (r: Step)
    ensures Blank(email) || Blank(password) ==>
      r == Step(s, Error(AppError(MissingCredentials, 400)))
    ensures r.reply == Error(AppError(BadCredentials, 401)) <==>
      !Blank(email) && !Blank(password) && !PasswordAccepted(s, env, email.value, password.value)
    ensures r.reply == Error(AppError(Inactive, 401)) <==>
      && !Blank(email) && !Blank(password) && PasswordAccepted(s, env, email.value, password.value)
      && !s[FindByEmail(s, email.value).value].active
    ensures !r.reply.Session? ==> r.store == s
    ensures (&& !Blank(email) && !Blank(password) && PasswordAccepted(s, env, email.value, password.value)
             && s[FindByEmail(s, email.value).value].active) ==> r.reply.Session?
    ensures r.reply.Session? ==>
      && !Blank(email) && !Blank(password) && PasswordAccepted(s, env, email.value, password.value)
      && var i := FindByEmail(s, email.value).value;
      && s[i].active && OnlyChanged(s, r.store, i)
      && r.store[i] == s[i].(loggedOut := false)
      && r.reply == Session(200, env.sign(s[i].id), View(s[i]))
  {
    if Blank(email) || Blank(password) then Step(s, Error(AppError(MissingCredentials, 400)))
    else match FindByEmail(s, email.value)
      case None => Step(s, Error(AppError(BadCredentials, 401)))
      case Some(i) =>
        if !env.correctPassword(password.value, s[i].password) then
          Step(s, Error(AppError(BadCredentials, 401)))
        else if !s[i].active then Step(s, Error(AppError(Inactive, 401)))
        else CreateSendToken(s, i, env, 200)
  }

  /** `forgotPassword`: store the digest of a fresh reset token with an expiry ten
      minutes from `now`, then mail the token. If mailing throws, both reset fields
      are cleared again and the request fails with 500. */
  function ForgotPassword(s: Store, env: Collaborators, email: string, token: string,
                          now: nat, delivered: bool): (r: Step)
    ensures FindByEmail(s, email).None? ==> r == Step(s, Error(AppError(UnknownUser, 401)))
    ensures FindByEmail(s, email).Some? ==>
      var i := FindByEmail(s, email).value;
      && OnlyChanged(s, r.store, i)
      && r.store[i].(passwordResetToken := s[i].passwordResetToken,
                     passwordResetExpires := s[i].passwordResetExpires) == s[i]
    ensures FindByEmail(s, email).Some? && delivered ==>
      var i := FindByEmail(s, email).value;
      && r.store[i].passwordResetToken == Some(env.sha256(token))
      && r.store[i].passwordResetExpires == Some(now + ResetLifetime)
      && r.reply == Done(200, "Token sent to mail")
    ensures FindByEmail(s, email).Some? && !delivered ==>
      var i := FindByEmail(s, email).value;
      && r.store[i].passwordResetToken.None? && r.store[i].passwordResetExpires.None?
      && r.reply == Error(AppError(MailFailed, 500))
  {
    match FindByEmail(s, email)
    case None => Step(s, Error(AppError(UnknownUser, 401)))
    case Some(i) =>
      var pending := s[i].(passwordResetToken := Some(env.sha256(token)),
                           passwordResetExpires := Some(now + ResetLifetime));
      if delivered then Step(s[i := pending], Done(200, "Token sent to mail"))
      else
        var cleared := pending.(passwordResetToken := None, passwordResetExpires := None);
        Step(s[i := cleared], Error(AppError(MailFailed, 500)))
  }

  /** `resetPassword`: the token's digest must be held by an account whose expiry
      lies after `now`. The new password goes through the user model's validators
      on save; if they reject it nothing is saved. On success the password is
      replaced and the digest and expiry are cleared together. */
  function ResetPassword(s: Store, env: Collaborators, token: string, password: string,
                         passwordConfirm: string, now: nat): (r: Step)
    ensures (forall j :: 0 <= j < |s| ==> !HoldsLiveReset(s[j], env.sha256(token), now)) ==>
      r == Step(s, Error(AppError(InvalidReset, 400)))
    ensures r.reply.Done? <==>
      && (exists j :: 0 <= j < |s| && HoldsLiveReset(s[j], env.sha256(token), now))
      && |env.passwordErrors(password, passwordConfirm)| == 0
    ensures FindByLiveReset(s, env.sha256(token), now).Some? && |env.passwordErrors(password, passwordConfirm)| > 0 ==>
      r == Step(s, Error(Thrown(Invalid(env.passwordErrors(password, passwordConfirm)))))
    ensures !r.reply.Done? ==> r.store == s
    ensures r.reply.Done? ==>
      var i := FindByLiveReset(s, env.sha256(token), now).value;
      && OnlyChanged(s, r.store, i)
      && r.store[i] == s[i].(password := env.hashPassword(password),
                             passwordResetToken := None, passwordResetExpires := None)
      && r.reply == Done(200, "Password succesfully reset!! Proceed to login")
  {
    match FindByLiveReset(s, env.sha256(token), now)
    case None => Step(s, Error(AppError(InvalidReset, 400)))
    case Some(i) =>
      var errors := env.passwordErrors(password, passwordConfirm);
      if |errors| > 0 then Step(s, Error(Thrown(Invalid(errors))))
      else
        var a := s[i].(password := env.hashPassword(password),
                       passwordResetToken := None, passwordResetExpires := None);
        Step(s[i := a], Done(200, "Password succesfully reset!! Proceed to login"))
  }

  /** `confirmEmail`: the token's digest must be the pending confirmation digest of
      some account; that account is activated, its digest cleared, and a session
      token issued for it. */
  function ConfirmEmail(s: Store, env: Collaborators, token: string): (r: Step)
    ensures r.reply.Session? <==> exists j :: 0 <= j < |s| && HoldsConfirm(s[j], env.sha256(token))
    ensures !r.reply.Session? ==> r == Step(s, Error(AppError(InvalidConfirm, 400)))
    ensures r.reply.Session? ==>
      var i := FindByConfirm(s, env.sha256(token)).value;
      && OnlyChanged(s, r.store, i)
      && r.store[i] == s[i].(active := true, confirmEmailToken := None, loggedOut := false)
      && r.reply == Session(200, env.sign(s[i].id), View(r.store[i]))
  {
    match FindByConfirm(s, env.sha256(token))
    case None => Step(s, Error(AppError(InvalidConfirm, 400)))
    case Some(i) =>
      var a := s[i].(active := true, confirmEmailToken := None);
      CreateSendToken(s[i := a], i, env, 200)
  }

  /** The bearer token of an `Authorization` header: the header must start with
      `Bearer`, and the token is the second piece of splitting it on single spaces,
      which must not be empty. */
  function BearerToken(header: Option<string>): (r: Option<string>)
    ensures r.Some? ==> header.Some? && "Bearer" <= header.value
    ensures r.Some? ==> r.value != "" && ' ' !in r.value
    ensures header.Some? && ' ' !in header.value ==> r.None?
    ensures r.Some? ==> r.value == Split(header.value)[1]
  {
    if header.None? || !("Bearer" <= header.value) then None
    else
      var pieces := Split(header.value);
      if |pieces| < 2 || pieces[1] == "" then None else Some(pieces[1])
  }

  /** `protect`: a bearer token is required, it must verify, the account it names
      must still exist, and that account must not be logged out. Nothing is written. */
  function Protect(s: Store, env: Collaborators, header: Option<string>): (r: Result<Account, Failure>)
    ensures BearerToken(header).None? ==> r == Failure(AppError(NotLoggedIn, 401))
    ensures BearerToken(header).Some? && env.verify(BearerToken(header).value).None? ==>
      r == Failure(Thrown(TokenRejected))
    ensures BearerToken(header).Some? && env.verify(BearerToken(header).value).Some? ==>
      var id := env.verify(BearerToken(header).value).value;
      && (FindById(s, id).None? ==> r == Failure(AppError(UserGone, 401)))
      && (FindById(s, id).Some? && s[FindById(s, id).value].loggedOut ==>
            r == Failure(AppError(NotLoggedIn, 401)))
      && (FindById(s, id).Some? && !s[FindById(s, id).value].loggedOut ==>
            r == Success(s[FindById(s, id).value]))
    ensures r.Success? <==>
      && BearerToken(header).Some?
      && env.verify(BearerToken(header).value).Some?
      && exists j :: 0 <= j < |s| && s[j].id == env.verify(BearerToken(header).value).value
                     && !s[FindById(s, s[j].id).value].loggedOut
    ensures r.Success? ==> r.value in s && r.value.id == env.verify(BearerToken(header).value).value
                           && !r.value.loggedOut
  {
    match BearerToken(header)
    case None => Failure(AppError(NotLoggedIn, 401))
    case Some(token) =>
      match env.verify(token)
      case None => Failure(Thrown(TokenRejected))
      case Some(id) =>
        match FindById(s, id)
        case None => Failure(AppError(UserGone, 401))
        case Some(i) =>
          if s[i].loggedOut then Failure(AppError(NotLoggedIn, 401))
          else Success(s[i])
  }

  /** `logout`: look the caller up again by email and set its logout flag. */
  function Logout(s: Store, user: Account): (r: Step)
    ensures FindByEmail(s, user.email).None? ==> r == Step(s, Error(Thrown(NoSuchUser)))
    ensures FindByEmail(s, user.email).Some? ==>
      var i := FindByEmail(s, user.email).value;
      && OnlyChanged(s, r.store, i)
      && r.store[i] == s[i].(loggedOut := true)
      && r.reply == Done(200, "You have successfully logged out")
  {
    match FindByEmail(s, user.email)
    case None => Step(s, Error(Thrown(NoSuchUser)))
    case Some(i) => Step(s[i := s[i].(loggedOut := true)], Done(200, "You have successfully logged out"))
  }

  /** The `/logout` route: `protect` runs first and `logout` only if it passes. */
  function LogoutRoute(s: Store, env: Collaborators, header: Option<string>): (r: Step)
    ensures Protect(s, env, header).Failure? ==> r == Step(s, Error(Protect(s, env, header).error))
    ensures Protect(s, env, header).Success? && WellFormed(s) ==>
      r.reply.Done? && exists i :: 0 <= i < |s| && s[i] == Protect(s, env, header).value
                                  && OnlyChanged(s, r.store, i) && r.store[i].loggedOut
    ensures Protect(s, env, header).Success? && WellFormed(s) ==>
      var i := FindByEmail(s, Protect(s, env, header).value.email).value;
      && s[i] == Protect(s, env, header).value
      && r == Step(s[i := s[i].(loggedOut := true)], Done(200, "You have successfully logged out"))
  {
    match Protect(s, env, header)
    case Failure(e) => Step(s, Error(e))
    case Success(user) => Logout(s, user)
  }
}

=== FILE: auth_properties.dfy ===
/** Properties of the account lifecycle that relate several operations. */
module AuthProperties {
  import opened Wrappers
  import opened Text
  import opened Accounts
  import opened Auth
  import opened Errors

  // ----- one-time tokens -----

  /** A confirmation token works once: after it has activated an account, the same
      plaintext is rejected, provided no two accounts held the same digest. */
  lemma ConfirmTokenSingleUse(s: Store, env: Collaborators, token: string)
    requires ConfirmDigestsDistinct(s)
    requires ConfirmEmail(s, env, token).reply.Session?
    ensures var s' := ConfirmEmail(s, env, token).store;
      ConfirmEmail(s', env, token) == Step(s', Error(AppError(InvalidConfirm, 400)))
  {
  }

  /** A reset token works once: after a successful reset, the same plaintext is
      rejected at any later time, whatever password it comes with. */
  lemma ResetTokenSingleUse(s: Store, env: Collaborators, token: string, password: string,
                            confirm: string, now: nat, password': string, confirm': string, later: nat)
    requires ResetDigestsDistinct(s)
    requires ResetPassword(s, env, token, password, confirm, now).reply.Done?
    ensures var s' := ResetPassword(s, env, token, password, confirm, now).store;
      ResetPassword(s', env, token, password', confirm', later) == Step(s', Error(AppError(InvalidReset, 400)))
  {
  }

  /** A mailed reset token opens the account within its ten minutes. */
  lemma ResetWithinLifetime(s: Store, env: Collaborators, email: string, token: string, issued: nat,
                            password: string, confirm: string, now: nat)
    requires FindByEmail(s, email).Some?
    requires now < issued + ResetLifetime
    requires |env.passwordErrors(password, confirm)| == 0
    ensures var s' := ForgotPassword(s, env, email, token, issued, true).store;
      ResetPassword(s', env, token, password, confirm, now).reply.Done?
  {
  }

  /** Once its ten minutes are over, a mailed reset token is rejected even though its
      digest is still stored, provided no other account held that digest. */
  lemma ResetTokenExpires(s: Store, env: Collaborators, email: string, token: string, issued: nat,
                          password: string, confirm: string, now: nat)
    requires FindByEmail(s, email).Some?
    requires forall j :: 0 <= j < |s| ==> s[j].passwordResetToken != Some(env.sha256(token))
    requires now >= issued + ResetLifetime
    ensures var s' := ForgotPassword(s, env, email, token, issued, true).store;
      && s'[FindByEmail(s, email).value].passwordResetToken == Some(env.sha256(token))
      && ResetPassword(s', env, token, password, confirm, now) == Step(s', Error(AppError(InvalidReset, 400)))
  {
  }

  /** The link mailed at signup activates exactly the new account. */
  lemma SignupThenConfirm(s: Store, env: Collaborators, form: SignupForm, newId: string, token: string)
    requires |env.signupErrors(form)| == 0 && Unclaimed(s, newId, form.email)
    requires forall j :: 0 <= j < |s| ==> !HoldsConfirm(s[j], env.sha256(token))
    ensures var s1 := Signup(s, env, form, newId, token, true).store;
      var r := ConfirmEmail(s1, env, token);
      && r.reply.Session? && r.reply.token == env.sign(newId)
      && r.store[..|s|] == s && r.store[|s|].active && r.store[|s|].confirmEmailToken.None?
  {
  }

  /** When the confirmation mail cannot be sent, the account is usable at once and
      the token it was given never confirms anything. */
  lemma SignupMailFailureForcesActivation(s: Store, env: Collaborators, form: SignupForm,
                                          newId: string, token: string)
    requires |env.signupErrors(form)| == 0 && Unclaimed(s, newId, form.email)
    requires forall j :: 0 <= j < |s| ==> !HoldsConfirm(s[j], env.sha256(token))
    ensures var r := Signup(s, env, form, newId, token, false);
      && r.reply == Silent && r.store[|s|].active
      && ConfirmEmail(r.store, env, token) == Step(r.store, Error(AppError(InvalidConfirm, 400)))
  {
  }

  // ----- login -----

  /** Whether the email is unknown or the password wrong cannot be told from the
      answer: any two stores in which the credentials fail give the same reply. */
  lemma LoginHidesWhichCredentialFailed(s: Store, t: Store, env: Collaborators, email: string, password: string)
    requires email != "" && password != ""
    requires FindByEmail(s, email).None?
    requires FindByEmail(t, email).Some? && !env.correctPassword(password, t[FindByEmail(t, email).value].password)
    ensures Login(s, env, Some(email), Some(password)).reply == Login(t, env, Some(email), Some(password)).reply
    ensures Login(s, env, Some(email), Some(password)).store == s
    ensures Login(t, env, Some(email), Some(password)).store == t
  {
  }

  // ----- logout and the bearer gate -----

  /** A header `Bearer <token>` (with further space-separated pieces allowed) yields
      the token, for any scheme word starting with `Bearer`. */
  lemma {:induction false} BearerHeaderRoundTrip(scheme: string, token: string, more: seq<string>)
    requires "Bearer" <= scheme && ' ' !in scheme
    requires token != "" && ' ' !in token
    requires forall k :: 0 <= k < |more| ==> ' ' !in more[k]
    ensures BearerToken(Some(Join([scheme, token] + more))) == Some(token)
  {
    var pieces := [scheme, token] + more;
    assert pieces[0] == scheme && pieces[1] == token;
    assert forall k :: 0 <= k < |pieces| ==> ' ' !in pieces[k];
    SplitJoin(pieces);
    var h := Join(pieces);
    JoinStartsWithFirst(pieces);
    assert "Bearer" <= h;
  }

  /** After the `/logout` route succeeds, every session token for that account is
      refused by `protect` with 401, however valid its signature. */
  lemma LogoutRevokesAccess(s: Store, env: Collaborators, header: Option<string>, other: Option<string>)
    requires WellFormed(s)
    requires Protect(s, env, header).Success?
    requires BearerToken(other).Some? && env.verify(BearerToken(other).value) == Some(Protect(s, env, header).value.id)
    ensures var s' := LogoutRoute(s, env, header).store;
      Protect(s', env, other) == Failure(AppError(NotLoggedIn, 401))
  {
    var user := Protect(s, env, header).value;
    var k := FindByEmail(s, user.email).value;
    var s' := LogoutRoute(s, env, header).store;
    assert s'[k].loggedOut && s'[k].id == user.id;
    forall j | 0 <= j < k
      ensures !HasId(s'[j], user.id)
    {
      assert s'[j] == s[j];
    }
  }

  /** A successful login lets the issued token through `protect` again, provided the
      token verifies to the id it was signed for and is a single space-free word. */
  lemma LoginRestoresAccess(s: Store, env: Collaborators, email: Option<string>, password: Option<string>)
    requires WellFormed(s)
    requires Login(s, env, email, password).reply.Session?
    requires var t := Login(s, env, email, password).reply.token;
      t != "" && ' ' !in t
    requires forall id :: env.verify(env.sign(id)) == Some(id)
    ensures var r := Login(s, env, email, password);
      Protect(r.store, env, Some("Bearer " + r.reply.token)).Success?
  {
    var r := Login(s, env, email, password);
    var i := FindByEmail(s, email.value).value;
    BearerHeaderRoundTrip("Bearer", r.reply.token, []);
    assert Join(["Bearer", r.reply.token]) == "Bearer " + r.reply.token;
    assert env.verify(r.reply.token) == Some(s[i].id);
    assert r.store[i].id == s[i].id && !r.store[i].loggedOut;
    forall j | 0 <= j < |s| && j != i
      ensures !HasId(r.store[j], s[i].id)
    {
      assert r.store[j] == s[j];
    }
  }

  // ----- the collection invariant -----

  lemma SignupPreservesWellFormed(s: Store, env: Collaborators, form: SignupForm, newId: string,
                                  token: string, delivered: bool)
    requires WellFormed(s)
    ensures WellFormed(Signup(s, env, form, newId, token, delivered).store)
  {
  }

  lemma CreateSendTokenPreservesWellFormed(s: Store, i: nat, env: Collaborators, status: nat)
    requires WellFormed(s) && i < |s|
    ensures WellFormed(CreateSendToken(s, i, env, status).store)
  {
    ReplaceKeepsWellFormed(s, CreateSendToken(s, i, env, status).store, i);
  }

  lemma LoginPreservesWellFormed(s: Store, env: Collaborators, email: Option<string>, password: Option<string>)
    requires WellFormed(s)
    ensures WellFormed(Login(s, env, email, password).store)
  {
    if email.Some? && FindByEmail(s, email.value).Some? {
      CreateSendTokenPreservesWellFormed(s, FindByEmail(s, email.value).value, env, 200);
    }
  }

  lemma ForgotPasswordPreservesWellFormed(s: Store, env: Collaborators, email: string, token: string,
                                          now: nat, delivered: bool)
    requires WellFormed(s)
    ensures WellFormed(ForgotPassword(s, env, email, token, now, delivered).store)
  {
    if FindByEmail(s, email).Some? {
      ReplaceKeepsWellFormed(s, ForgotPassword(s, env, email, token, now, delivered).store,
                             FindByEmail(s, email).value);
    }
  }

  lemma ResetPasswordPreservesWellFormed(s: Store, env: Collaborators, token: string, password: string,
                                         confirm: string, now: nat)
    requires WellFormed(s)
    ensures WellFormed(ResetPassword(s, env, token, password, confirm, now).store)
  {
    var r := ResetPassword(s, env, token, password, confirm, now);
    if r.reply.Done? {
      ReplaceKeepsWellFormed(s, r.store, FindByLiveReset(s, env.sha256(token), now).value);
    }
  }

  lemma ConfirmEmailPreservesWellFormed(s: Store, env: Collaborators, token: string)
    requires WellFormed(s)
    ensures WellFormed(ConfirmEmail(s, env, token).store)
  {
    var r := ConfirmEmail(s, env, token);
    if r.reply.Session? {
      ReplaceKeepsWellFormed(s, r.store, FindByConfirm(s, env.sha256(token)).value);
    }
  }

  lemma LogoutRoutePreservesWellFormed(s: Store, env: Collaborators, header: Option<string>)
    requires WellFormed(s)
    ensures WellFormed(LogoutRoute(s, env, header).store)
  {
    var p := Protect(s, env, header);
    if p.Success? && FindByEmail(s, p.value.email).Some? {
      ReplaceKeepsWellFormed(s, LogoutRoute(s, env, header).store, FindByEmail(s, p.value.email).value);
    }
  }

  // ----- a whole session -----

  /** The new account is the one signup appended, found by its email. */
  lemma {:induction false} NewAccountFound(s: Store, s': Store, email: string, id: string)
    requires |s'| == |s| + 1 && s'[..|s|] == s
    requires s'[|s|].email == email && s'[|s|].id == id
    requires forall j :: 0 <= j < |s| ==> s[j].id != id && s[j].email != email
    ensures FindByEmail(s', email) == Some(|s|)
    ensures FindById(s', id) == Some(|s|)
  {
    forall j | 0 <= j < |s|
      ensures !HasEmail(s'[j], email) && !HasId(s'[j], id)
    {
      assert s'[j] == s'[..|s|][j];
    }
  }

  /** Logging in before confirming is refused as inactive, with the right password. */
  lemma {:induction false} LoginBeforeConfirm(s: Store, env: Collaborators, form: SignupForm, newId: string, token: string)
    requires |env.signupErrors(form)| == 0 && Unclaimed(s, newId, form.email)
    requires form.email != "" && form.password != ""
    requires env.correctPassword(form.password, env.hashPassword(form.password))
    ensures var s1 := Signup(s, env, form, newId, token, true).store;
      Login(s1, env, Some(form.email), Some(form.password)) == Step(s1, Error(AppError(Inactive, 401)))
  {
  }

  /** A header carrying a token that verifies to a logged-in account passes `protect`. */
  lemma {:induction false} SessionHeaderPasses(s: Store, env: Collaborators, id: string, token: string)
    requires FindById(s, id).Some? && !s[FindById(s, id).value].loggedOut
    requires env.verify(token) == Some(id)
    requires token != "" && ' ' !in token
    ensures Protect(s, env, Some("Bearer " + token)) == Success(s[FindById(s, id).value])
  {
    BearerHeaderRoundTrip("Bearer", token, []);
    assert Join(["Bearer", token]) == "Bearer " + token;
  }

  /** An active account appended after the existing ones, with an id and email no
      earlier account uses, can log in with its password and the session it gets
      passes `protect`. */
  lemma {:induction false} LoginFreshAccount(s: Store, s2: Store, env: Collaborators,
                                             email: string, password: string, id: string)
    requires |s2| == |s| + 1 && s2[..|s|] == s
    requires s2[|s|].email == email && s2[|s|].id == id && s2[|s|].active
    requires Unclaimed(s, id, email)
    requires email != "" && password != "" && env.correctPassword(password, s2[|s|].password)
    requires env.verify(env.sign(id)) == Some(id)
    requires env.sign(id) != "" && ' ' !in env.sign(id)
    ensures var r := Login(s2, env, Some(email), Some(password));
      && r.reply.Session? && r.reply.token == env.sign(id)
      && Protect(r.store, env, Some("Bearer " + env.sign(id))).Success?
  {
    NewAccountFound(s, s2, email, id);
    var r := Login(s2, env, Some(email), Some(password));
    assert r.store[..|s|] == s by {
      assert forall j :: 0 <= j < |s| ==> r.store[j] == s2[j];
    }
    NewAccountFound(s, r.store, email, id);
    SessionHeaderPasses(r.store, env, id, env.sign(id));
  }

  /** After confirmation the account logs in, and the issued token passes `protect`. */
  lemma {:induction false} LoginAfterConfirm(s: Store, env: Collaborators, form: SignupForm, newId: string, token: string)
    requires WellFormed(s)
    requires |env.signupErrors(form)| == 0 && Unclaimed(s, newId, form.email)
    requires forall j :: 0 <= j < |s| ==> !HoldsConfirm(s[j], env.sha256(token))
    requires form.email != "" && form.password != ""
    requires env.correctPassword(form.password, env.hashPassword(form.password))
    requires env.verify(env.sign(newId)) == Some(newId)
    requires env.sign(newId) != "" && ' ' !in env.sign(newId)
    ensures var s2 := ConfirmEmail(Signup(s, env, form, newId, token, true).store, env, token).store;
      var r := Login(s2, env, Some(form.email), Some(form.password));
      && r.reply.Session? && r.reply.token == env.sign(newId)
      && Protect(r.store, env, Some("Bearer " + env.sign(newId))).Success?
  {
    var s1 := Signup(s, env, form, newId, token, true).store;
    SignupThenConfirm(s, env, form, newId, token);
    var s2 := ConfirmEmail(s1, env, token).store;
    assert s2[|s|].id == newId && s2[|s|].email == form.email;
    assert s2[|s|].password == env.hashPassword(form.password);
    LoginFreshAccount(s, s2, env, form.email, form.password, newId);
  }

  /** Sign up, log in too early, confirm, log in, log out, and come back with the
      same session token: the early login is refused as inactive, the login after
      confirmation issues a token that `protect` accepts, and after logout
      `protect` refuses that token even though it still verifies. */
  lemma {:induction false} SessionLifecycle(s: Store, env: Collaborators, form: SignupForm, newId: string, token: string)
    requires WellFormed(s)
    requires |env.signupErrors(form)| == 0 && Unclaimed(s, newId, form.email)
    requires forall j :: 0 <= j < |s| ==> !HoldsConfirm(s[j], env.sha256(token))
    requires form.email != "" && form.password != ""
    requires env.correctPassword(form.password, env.hashPassword(form.password))
    requires env.verify(env.sign(newId)) == Some(newId)
    requires env.sign(newId) != "" && ' ' !in env.sign(newId)
    ensures
      var s1 := Signup(s, env, form, newId, token, true).store;
      var s2 := ConfirmEmail(s1, env, token).store;
      var s3 := Login(s2, env, Some(form.email), Some(form.password)).store;
      var header := Some("Bearer " + env.sign(newId));
      && Login(s1, env, Some(form.email), Some(form.password)).reply == Error(AppError(Inactive, 401))
      && Protect(s3, env, header).Success?
      && LogoutRoute(s3, env, header).reply.Done?
      && Protect(LogoutRoute(s3, env, header).store, env, header) == Failure(AppError(NotLoggedIn, 401))
  {
    LoginBeforeConfirm(s, env, form, newId, token);
    LoginAfterConfirm(s, env, form, newId, token);
    var s1 := Signup(s, env, form, newId, token, true).store;
    SignupPreservesWellFormed(s, env, form, newId, token, true);
    var s2 := ConfirmEmail(s1, env, token).store;
    ConfirmEmailPreservesWellFormed(s1, env, token);
    var s3 := Login(s2, env, Some(form.email), Some(form.password)).store;
    LoginPreservesWellFormed(s2, env, Some(form.email), Some(form.password));
    var header := Some("Bearer " + env.sign(newId));
    LogoutRevokesAccess(s3, env, header, header);
  }
}

=== FILE: errors.dfy ===
/** How the controllers fail. An `AppError` carries the message and status the
    handler chose; anything else is an exception that escapes the handler and is
    answered by the application's error middleware. */
module Errors {

  datatype Cause =
    | Invalid(messages: seq<string>)   // a model validator rejected the document
    | DuplicateKey                     // a unique index (`_id`, the user's `email`) was violated
    | TokenRejected                    // `jwt.verify` threw: bad signature or expired token
    | NoSuchUser                       // a property of a `null` user was assigned

  datatype Failure =
    | AppError(message: string, status: nat)   // `next(new AppError(message, status))`
    | Thrown(cause: Cause)
}

=== FILE: task_properties.dfy ===
/** Properties of the task controller that relate several operations or several
    callers. */
module TaskProperties {
  import opened Wrappers
  import opened Errors
  import opened TaskSchema
  import opened Tasks

  /** `getTask` and `getAllTasks` agree on what the caller can see. */
  lemma GetTaskAgreesWithGetAll(s: TaskStore, caller: UserId, id: TaskId)
    ensures GetTask(s, caller, id).Success? <==> id in GetAllTasks(s, caller)
    ensures id in GetAllTasks(s, caller) ==> GetTask(s, caller, id).value == GetAllTasks(s, caller)[id]
  {
  }

  /** A created task is the caller's: it reads back by id and shows in the list. */
  lemma CreateThenGet(s: TaskStore, schema: Schema, caller: UserId, newId: TaskId, body: TaskFields)
    requires CreateTask(s, schema, caller, newId, body).result.Success?
    ensures var r := CreateTask(s, schema, caller, newId, body);
      && GetTask(r.store, caller, newId) == Success(View(newId, r.result.value))
      && newId in GetAllTasks(r.store, caller)
  {
  }

  /** A body cannot plant a task in another user's list: whatever `createdBy` it
      carries, only the caller's list gains the task. */
  lemma CreateIgnoresClaimedOwner(s: TaskStore, schema: Schema, caller: UserId, other: UserId,
                                  newId: TaskId, body: TaskFields)
    requires other != caller
    requires body.createdBy == Some(other)
    ensures GetAllTasks(CreateTask(s, schema, caller, newId, body).store, other) == GetAllTasks(s, other)
  {
  }

  /** A deleted task is gone: reading it fails and deleting it again gives 404. */
  lemma DeleteThenGet(s: TaskStore, caller: UserId, id: TaskId)
    requires DeleteTask(s, caller, id).result.Success?
    ensures var s' := DeleteTask(s, caller, id).store;
      && GetTask(s', caller, id) == Failure(NoTask(id, 400))
      && DeleteTask(s', caller, id) == TaskStep(s', Failure(NoTask(id, 404)))
  {
  }

  /** Updating twice with the same patch leaves what updating once left. */
  lemma UpdateIdempotent(s: TaskStore, caller: UserId, id: TaskId, patch: TaskFields)
    ensures var s' := UpdateTask(s, caller, id, patch).store;
      UpdateTask(s', caller, id, patch).store == s'
  {
  }

  /** No caller can read, change or delete a task that is not theirs. */
  lemma ForeignTaskUntouchable(s: TaskStore, caller: UserId, id: TaskId, patch: TaskFields)
    requires id in s && s[id].createdBy != Some(caller)
    ensures GetTask(s, caller, id) == Failure(NoTask(id, 400))
    ensures UpdateTask(s, caller, id, patch).store == s && UpdateTask(s, caller, id, patch).result.Failure?
    ensures UpdateTaskAsWritten(s, caller, id, patch).store == s
    ensures DeleteTask(s, caller, id) == TaskStep(s, Failure(NoTask(id, 404)))
  {
  }

  // ----- isolation between users -----

  lemma OthersListsUnchangedByCreate(s: TaskStore, schema: Schema, caller: UserId, other: UserId,
                                     newId: TaskId, body: TaskFields)
    requires other != caller
    ensures GetAllTasks(CreateTask(s, schema, caller, newId, body).store, other) == GetAllTasks(s, other)
  {
  }

  lemma OthersListsUnchangedByUpdate(s: TaskStore, caller: UserId, other: UserId, id: TaskId, patch: TaskFields)
    requires other != caller
    ensures GetAllTasks(UpdateTask(s, caller, id, patch).store, other) == GetAllTasks(s, other)
  {
  }

  lemma OthersListsUnchangedByDelete(s: TaskStore, caller: UserId, other: UserId, id: TaskId)
    requires other != caller
    ensures GetAllTasks(DeleteTask(s, caller, id).store, other) == GetAllTasks(s, other)
  {
  }

  /** The two versions of `updateTask` agree whenever the patch does not name a
      different owner. */
  lemma UpdateVersionsAgree(s: TaskStore, caller: UserId, id: TaskId, patch: TaskFields)
    requires patch.createdBy.None? || patch.createdBy == Some(caller)
    ensures UpdateTaskAsWritten(s, caller, id, patch) == UpdateTask(s, caller, id, patch)
  {
  }

  /** As written, `updateTask` lets the owner of a task hand it to someone else:
      alice patches her task with `createdBy: "bob"` and it appears in bob's list. */
  lemma UpdateAsWrittenReassignsOwner()
    ensures var s := map["t1" := Task("Buy milk", "2 litres", 0, Some("alice"))];
      var patch := TaskFields(None, None, None, Some("bob"));
      var r := UpdateTaskAsWritten(s, "alice", "t1", patch);
      && r.result.Success?
      && GetAllTasks(s, "bob") == map[]
      && "t1" in GetAllTasks(r.store, "bob")
  {
  }

  // ----- the collection invariant -----

  lemma CreatePreservesValid(s: TaskStore, schema: Schema, caller: UserId, newId: TaskId, body: TaskFields)
    requires ValidStore(s)
    ensures ValidStore(CreateTask(s, schema, caller, newId, body).store)
  {
  }

  lemma UpdatePreservesValid(s: TaskStore, caller: UserId, id: TaskId, patch: TaskFields)
    requires ValidStore(s)
    ensures ValidStore(UpdateTaskAsWritten(s, caller, id, patch).store)
    ensures ValidStore(UpdateTask(s, caller, id, patch).store)
  {
  }

  lemma DeletePreservesValid(s: TaskStore, caller: UserId, id: TaskId)
    requires ValidStore(s)
    ensures ValidStore(DeleteTask(s, caller, id).store)
  {
  }
}

=== FILE: task_schema.dfy ===
/** The task schema: two required, trimmed text fields, a timestamp with a default,
    and an owner reference that queries leave out. */
module TaskSchema {
  import opened Wrappers
  import opened Text

  type UserId = string
  type TaskId = string

  /** A stored task document (its `_id` is the key it is stored under). */
  datatype Task = Task(title: string, description: string, timeStamp: nat, createdBy: Option<UserId>)

  /** Task fields as a request body carries them; any of them may be absent. */
  datatype TaskFields = TaskFields(
    title: Option<string>,
    description: Option<string>,
    timeStamp: Option<nat>,
    createdBy: Option<UserId>)

  /** A task as a query returns it: `createdBy` is not selected. */
  datatype TaskView = TaskView(id: TaskId, title: string, description: string, timeStamp: nat)

  /** The compiled schema. `defaultTimeStamp` is the value `Date.now()` had when the
      schema was defined, once, at module load. */
  datatype Schema = Schema(defaultTimeStamp: nat)

  const TitleRequired := "must provide title"
  const DescriptionRequired := "must provide description"

  /** The `required` validator of a trimmed string path: the value is present and
      not empty once the `trim` setter has run. */
  predicate Provided(value: Option<string>) {
    value.Some? && Trim(value.value) != ""
  }

  /** A well-formed stored task: both text fields present and trimmed. */
  predicate ValidTask(t: Task) {
    && t.title != "" && Trimmed(t.title)
    && t.description != "" && Trimmed(t.description)
  }

  /** The messages of a failed create, in schema path order. */
  function CreateErrors(body: TaskFields): (errors: seq<string>)
    ensures TitleRequired in errors <==> !Provided(body.title)
    ensures DescriptionRequired in errors <==> !Provided(body.description)
    ensures forall m :: m in errors ==> m == TitleRequired || m == DescriptionRequired
  {
    (if Provided(body.title) then [] else [TitleRequired])
    + (if Provided(body.description) then [] else [DescriptionRequired])
  }

  /** Cast and validate a body into a new task document. */
  function Create(schema: Schema, body: TaskFields): (r: Result<Task, seq<string>>)
    ensures r.Success? <==> Provided(body.title) && Provided(body.description)
    ensures r.Failure? ==> r.error == CreateErrors(body) && |r.error| > 0
    ensures r.Success? ==> ValidTask(r.value)
    ensures r.Success? ==>
      && r.value.title == Trim(body.title.value)
      && r.value.description == Trim(body.description.value)
      && r.value.createdBy == body.createdBy
    ensures r.Success? && body.timeStamp.None? ==> r.value.timeStamp == schema.defaultTimeStamp
    ensures r.Success? && body.timeStamp.Some? ==> r.value.timeStamp == body.timeStamp.value
  {
    var errors := CreateErrors(body);
    if |errors| > 0 then Failure(errors)
    else Success(Task(Trim(body.title.value), Trim(body.description.value),
                      body.timeStamp.GetOr(schema.defaultTimeStamp), body.createdBy))
  }

  /** The messages of a rejected update: update validators run only on the paths
      the patch sets, so only a present but blank field fails. */
  function UpdateErrors(patch: TaskFields): (errors: seq<string>)
    ensures TitleRequired in errors <==> patch.title.Some? && !Provided(patch.title)
    ensures DescriptionRequired in errors <==> patch.description.Some? && !Provided(patch.description)
    ensures forall m :: m in errors ==> m == TitleRequired || m == DescriptionRequired
  {
    (if patch.title.Some? && !Provided(patch.title) then [TitleRequired] else [])
    + (if patch.description.Some? && !Provided(patch.description) then [DescriptionRequired] else [])
  }

  /** Set the fields a patch carries, through the same `trim` setter; fields it
      does not carry keep their value. */
  function Patch(t: Task, patch: TaskFields): (r: Task)
    ensures patch.title.None? ==> r.title == t.title
    ensures patch.title.Some? ==> r.title == Trim(patch.title.value)
    ensures patch.description.None? ==> r.description == t.description
    ensures patch.description.Some? ==> r.description == Trim(patch.description.value)
    ensures r.timeStamp == patch.timeStamp.GetOr(t.timeStamp)
    ensures r.createdBy == if patch.createdBy.Some? then patch.createdBy else t.createdBy
  {
    Task(
      if patch.title.Some? then Trim(patch.title.value) else t.title,
      if patch.description.Some? then Trim(patch.description.value) else t.description,
      patch.timeStamp.GetOr(t.timeStamp),
      if patch.createdBy.Some? then patch.createdBy else t.createdBy)
  }

  /** A patch the update validators accept keeps a valid task valid. */
  lemma PatchKeepsValid(t: Task, patch: TaskFields)
    requires ValidTask(t) && |UpdateErrors(patch)| == 0
    ensures ValidTask(Patch(t, patch))
  {
  }

  /** Applying the same patch twice is applying it once. */
  lemma PatchIdempotent(t: Task, patch: TaskFields)
    ensures Patch(Patch(t, patch), patch) == Patch(t, patch)
  {
  }

  function View(id: TaskId, t: Task): (v: TaskView)
    ensures v.id == id && v.title == t.title && v.description == t.description
    ensures v.timeStamp == t.timeStamp
  {
    TaskView(id, t.title, t.description, t.timeStamp)
  }

  /** A read never reveals the owner: tasks that differ only in `createdBy` read the same. */
  lemma ViewHidesOwner(id: TaskId, t: Task, owner: Option<UserId>)
    ensures View(id, t.(createdBy := owner)) == View(id, t)
  {
  }

  /** Every body created without a timestamp gets the one value computed when the
      schema was defined, whenever and by whomever it is created. */
  lemma DefaultTimeStampShared(schema: Schema, a: TaskFields, b: TaskFields)
    requires a.timeStamp.None? && b.timeStamp.None?
    requires Create(schema, a).Success? && Create(schema, b).Success?
    ensures Create(schema, a).value.timeStamp == Create(schema, b).value.timeStamp == schema.defaultTimeStamp
  {
  }

  /** Surrounding whitespace in a body does not reach the stored task. */
  lemma CreateStripsPadding(schema: Schema, body: TaskFields, pre: string, post: string)
    requires AllWhitespace(pre) && AllWhitespace(post)
    requires Create(schema, body).Success?
    ensures var padded := body.(title := Some(pre + body.title.value + post));
      Create(schema, padded).Success? && Create(schema, padded).value.title == Create(schema, body).value.title
  {
    TrimAbsorbsPadding(pre, body.title.value, post);
  }
}

=== FILE: tasks.dfy ===
/** The task controller: every operation runs for an authenticated caller and
    only ever matches tasks whose `createdBy` is that caller. */
module Tasks {
  import opened Wrappers
  import opened Errors
  import opened Text
  import opened TaskSchema

  /** The task collection, keyed by `_id`. */
  type TaskStore = map<TaskId, Task>

  datatype TaskStep<T> = TaskStep(store: TaskStore, result: Result<T, Failure>)

  /** `{ _id: id, createdBy: caller }` matches a document. */
  predicate Owned(s: TaskStore, id: TaskId, caller: UserId) {
    id in s && s[id].createdBy == Some(caller)
  }

  /** The collection holds only well-formed tasks. */
  predicate ValidStore(s: TaskStore) {
    forall id :: id in s ==> ValidTask(s[id])
  }

  /** The ids of the caller's tasks. */
  function OwnedIds(s: TaskStore, caller: UserId): set<TaskId> {
    set id | id in s && s[id].createdBy == Some(caller)
  }

  function NoTask(id: TaskId, status: nat): Failure {
    AppError("no task with id : " + id, status)
  }

  /** `getAllTasks`: the caller's tasks and no others, as reads show them. */
  function GetAllTasks(s: TaskStore, caller: UserId): (r: map<TaskId, TaskView>)
    ensures forall id :: id in r <==> Owned(s, id, caller)
    ensures forall id :: id in r ==> id in s && r[id] == View(id, s[id])
  {
    map id | id in OwnedIds(s, caller) :: View(id, s[id])
  }

  /** `createTask`: the body's `createdBy` is replaced by the caller before the
      document is validated and inserted under the generated `newId`. */
  function CreateTask(s: TaskStore, schema: Schema, caller: UserId, newId: TaskId,
                      body: TaskFields): (r: TaskStep<Task>)
    ensures r.result.Success? <==>
      Provided(body.title) && Provided(body.description) && newId !in s
    ensures r.result.Failure? ==> r.store == s
    ensures !(Provided(body.title) && Provided(body.description)) ==>
      r.result == Failure(Thrown(Invalid(CreateErrors(body))))
    ensures Provided(body.title) && Provided(body.description) && newId in s ==>
      r == TaskStep(s, Failure(Thrown(DuplicateKey)))
    ensures r.result.Success? ==>
      && r.store.Keys == s.Keys + {newId}
      && r.store[newId] == r.result.value
      && (forall id :: id in s ==> r.store[id] == s[id])
      && r.result.value.createdBy == Some(caller)
      && r.result.value.title == Trim(body.title.value)
      && r.result.value.description == Trim(body.description.value)
      && r.result.value.timeStamp == body.timeStamp.GetOr(schema.defaultTimeStamp)
      && ValidTask(r.result.value)
  {
    match Create(schema, body.(createdBy := Some(caller)))
    case Failure(errors) => TaskStep(s, Failure(Thrown(Invalid(errors))))
    case Success(t) =>
      if newId in s then TaskStep(s, Failure(Thrown(DuplicateKey)))
      else TaskStep(s[newId := t], Success(t))
  }

  /** `getTask`: the task with this id, only if the caller owns it. */
  function GetTask(s: TaskStore, caller: UserId, id: TaskId): (r: Result<TaskView, Failure>)
    ensures r.Success? <==> Owned(s, id, caller)
    ensures r.Success? ==> r.value == View(id, s[id])
    ensures r.Failure? ==> r.error == NoTask(id, 400)
  {
    if Owned(s, id, caller) then Success(View(id, s[id])) else Failure(NoTask(id, 400))
  }

  /** `updateTask` as the controller is written: the whole request body is the
      update, so a body carrying `createdBy` reassigns the task. Update validators
      run before the query. */
  function UpdateTaskAsWritten(s: TaskStore, caller: UserId, id: TaskId, patch: TaskFields): (r: TaskStep<TaskView>)
    ensures |UpdateErrors(patch)| > 0 ==> r == TaskStep(s, Failure(Thrown(Invalid(UpdateErrors(patch)))))
    ensures |UpdateErrors(patch)| == 0 && !Owned(s, id, caller) ==> r == TaskStep(s, Failure(NoTask(id, 404)))
    ensures |UpdateErrors(patch)| == 0 && Owned(s, id, caller) ==> r.result.Success?
    ensures r.result.Success? ==>
      && Owned(s, id, caller) && r.store == s[id := Patch(s[id], patch)]
      && r.result.value == View(id, r.store[id])
  {
    var errors := UpdateErrors(patch);
    if |errors| > 0 then TaskStep(s, Failure(Thrown(Invalid(errors))))
    else if !Owned(s, id, caller) then TaskStep(s, Failure(NoTask(id, 404)))
    else
      var t := Patch(s[id], patch);
      TaskStep(s[id := t], Success(View(id, t)))
  }

  /** `updateTask` as evidently intended: the owner of a task is fixed, so a patch
      cannot carry `createdBy`. */
  function UpdateTask(s: TaskStore, caller: UserId, id: TaskId, patch: TaskFields): (r: TaskStep<TaskView>)
    ensures r.result.Success? <==> |UpdateErrors(patch)| == 0 && Owned(s, id, caller)
    ensures |UpdateErrors(patch)| > 0 ==> r == TaskStep(s, Failure(Thrown(Invalid(UpdateErrors(patch)))))
    ensures |UpdateErrors(patch)| == 0 && !Owned(s, id, caller) ==> r == TaskStep(s, Failure(NoTask(id, 404)))
    ensures r.result.Success? ==>
      && r.store.Keys == s.Keys
      && (forall k :: k in s && k != id ==> r.store[k] == s[k])
      && r.store[id] == Patch(s[id], patch.(createdBy := None))
      && Owned(r.store, id, caller)
      && r.result.value == View(id, r.store[id])
  {
    UpdateTaskAsWritten(s, caller, id, patch.(createdBy := None))
  }

  /** `deleteTask`: remove the task with this id, only if the caller owns it. */
  function DeleteTask(s: TaskStore, caller: UserId, id: TaskId): (r: TaskStep<TaskView>)
    ensures r.result.Success? <==> Owned(s, id, caller)
    ensures r.result.Failure? ==> r == TaskStep(s, Failure(NoTask(id, 404)))
    ensures r.result.Success? ==>
      && r.store.Keys == s.Keys - {id}
      && (forall k :: k in r.store ==> r.store[k] == s[k])
      && r.result.value == View(id, s[id])
  {
    if Owned(s, id, caller) then TaskStep(s - {id}, Success(View(id, s[id])))
    else TaskStep(s, Failure(NoTask(id, 404)))
  }
}

=== FILE: text.dfy ===
/** The JavaScript string operations the controllers and the task schema rely on:
    `String.prototype.trim` and `String.prototype.split(' ')`. */
module Text {

  /** The characters `String.prototype.trim` removes: the ECMAScript WhiteSpace
      and LineTerminator code points. */
  predicate IsWhitespace(c: char) {
    || c == ' ' || c == '\t' || c == '\n' || c == '\r'
    || c == '\U{B}' || c == '\U{C}' || c == '\U{A0}' || c == '\U{FEFF}'
    || c == '\U{1680}' || ('\U{2000}' <= c <= '\U{200A}')
    || c == '\U{2028}' || c == '\U{2029}' || c == '\U{202F}'
    || c == '\U{205F}' || c == '\U{3000}'
  }

  predicate AllWhitespace(s: string) {
    forall k :: 0 <= k < |s| ==> IsWhitespace(s[k])
  }

  /** Neither end of `s` is whitespace: the shape of every trimmed string. */
  predicate Trimmed(s: string) {
    s == [] || (!IsWhitespace(s[0]) && !IsWhitespace(s[|s| - 1]))
  }

  /** Length of the whitespace run at the start of `s`. */
  function LeadingSpace(s: string): (n: nat)
    ensures n <= |s|
    ensures forall k :: 0 <= k < n ==> IsWhitespace(s[k])
    ensures n < |s| ==> !IsWhitespace(s[n])
  {
    if |s| == 0 || !IsWhitespace(s[0]) then 0
    else 1 + LeadingSpace(s[1..])
  }

  /** Length of the whitespace run at the end of `s`. */
  function TrailingSpace(s: string): (n: nat)
    ensures n <= |s|
    ensures forall k :: |s| - n <= k < |s| ==> IsWhitespace(s[k])
    ensures n < |s| ==> !IsWhitespace(s[|s| - n - 1])
  {
    if |s| == 0 || !IsWhitespace(s[|s| - 1]) then 0
    else 1 + TrailingSpace(s[..|s| - 1])
  }

  /** `String.prototype.trim`: `s` without its leading and trailing whitespace. */
  function Trim(s: string): (r: string)
    ensures Trimmed(r)
    ensures |r| <= |s|
  {
    var front := s[LeadingSpace(s)..];
    front[..|front| - TrailingSpace(front)]
  }

  lemma {:induction false} LeadingSpaceOfPadded(pre: string, rest: string)
    requires AllWhitespace(pre)
    ensures LeadingSpace(pre + rest) == |pre| + LeadingSpace(rest)
    decreases |pre|
  {
    if pre != [] {
      assert (pre + rest)[1..] == pre[1..] + rest;
      LeadingSpaceOfPadded(pre[1..], rest);
    } else {
      assert pre + rest == rest;
    }
  }

  lemma {:induction false} TrailingSpaceOfPadded(rest: string, post: string)
    requires AllWhitespace(post)
    ensures TrailingSpace(rest + post) == TrailingSpace(rest) + |post|
    decreases |post|
  {
    if post != [] {
      var last := |post| - 1;
      assert (rest + post)[..|rest + post| - 1] == rest + post[..last];
      TrailingSpaceOfPadded(rest, post[..last]);
    } else {
      assert rest + post == rest;
    }
  }

  /** Trimming is determined by the shape of its input: whatever whitespace pads a
      trimmed core, trimming recovers exactly that core. */
  lemma TrimOfPadded(pre: string, core: string, post: string)
    requires AllWhitespace(pre) && AllWhitespace(post) && Trimmed(core)
    ensures Trim(pre + core + post) == core
  {
    var s := pre + core + post;
    if core == [] {
      assert s == pre + post;
      LeadingSpaceOfPadded(pre, post);
      assert LeadingSpace(post) == |post|;
    } else {
      assert s == pre + (core + post);
      LeadingSpaceOfPadded(pre, core + post);
      assert LeadingSpace(core + post) == 0;
      var front := s[LeadingSpace(s)..];
      assert front == core + post;
      TrailingSpaceOfPadded(core, post);
      assert TrailingSpace(core) == 0;
      assert front[..|front| - TrailingSpace(front)] == core;
    }
  }

  /** Whitespace runs concatenate to a whitespace run. */
  lemma WhitespaceConcat(a: string, b: string)
    requires AllWhitespace(a) && AllWhitespace(b)
    ensures AllWhitespace(a + b)
  {
    forall k | 0 <= k < |a + b|
      ensures IsWhitespace((a + b)[k])
    {
      if k < |a| { assert (a + b)[k] == a[k]; } else { assert (a + b)[k] == b[k - |a|]; }
    }
  }

  lemma PrefixOfSuffix(s: string, n: nat, j: nat)
    requires n + j <= |s|
    ensures s[n..][..j] == s[n..n + j]
  {
  }

  /** The trimmed form is the slice of `s` between its two whitespace runs. */
  lemma {:induction false} TrimIsSlice(s: string)
    ensures var n := LeadingSpace(s);
      && n + |Trim(s)| <= |s|
      && Trim(s) == s[n..n + |Trim(s)|]
      && AllWhitespace(s[n + |Trim(s)|..])
  {
    var n := LeadingSpace(s);
    var front := s[n..];
    var m := TrailingSpace(front);
    var e := n + |front| - m;
    assert Trim(s) == front[..|front| - m];
    PrefixOfSuffix(s, n, |front| - m);
    forall k | 0 <= k < |s| - e
      ensures IsWhitespace(s[e..][k])
    {
      assert s[e..][k] == front[|front| - m + k];
    }
  }

  /** Every string is its trimmed core between two runs of whitespace. */
  lemma {:induction false} TrimSplits(s: string)
    ensures var n := LeadingSpace(s);
      && n + |Trim(s)| <= |s|
      && s == s[..n] + Trim(s) + s[n + |Trim(s)|..]
      && AllWhitespace(s[..n]) && AllWhitespace(s[n + |Trim(s)|..])
  {
    TrimIsSlice(s);
    var n := LeadingSpace(s);
    var e := n + |Trim(s)|;
    assert s == s[..n] + s[n..e] + s[e..];
  }

  lemma Regroup(a: string, b: string, c: string, d: string, e: string)
    ensures a + (b + c + d) + e == (a + b) + c + (d + e)
  {
  }

  /** Extra whitespace around a string does not change its trimmed form. */
  lemma TrimAbsorbsPadding(pre: string, s: string, post: string)
    requires AllWhitespace(pre) && AllWhitespace(post)
    ensures Trim(pre + s + post) == Trim(s)
  {
    TrimSplits(s);
    var n := LeadingSpace(s);
    var lead := s[..n];
    var trail := s[n + |Trim(s)|..];
    Regroup(pre, lead, Trim(s), trail, post);
    WhitespaceConcat(pre, lead);
    WhitespaceConcat(trail, post);
    TrimOfPadded(pre + lead, Trim(s), trail + post);
  }

  /** Trimming twice is trimming once. */
  lemma TrimIdempotent(s: string)
    ensures Trim(Trim(s)) == Trim(s)
  {
  }

  /** Joins `pieces` with single spaces between them (`Array.prototype.join(' ')`). */
  function Join(pieces: seq<string>): string
    requires |pieces| >= 1
  {
    if |pieces| == 1 then pieces[0] else pieces[0] + " " + Join(pieces[1..])
  }

  /** The joined string starts with the first piece. */
  lemma {:induction false} JoinStartsWithFirst(pieces: seq<string>)
    requires |pieces| >= 1
    ensures pieces[0] <= Join(pieces)
  {
  }

  /** `s.split(' ')`: the maximal space-free pieces between single spaces. An empty
      string gives one empty piece, and adjacent spaces give empty pieces. */
  function Split(s: string): (pieces: seq<string>)
    ensures |pieces| >= 1
    ensures forall i :: 0 <= i < |pieces| ==> ' ' !in pieces[i]
    ensures Join(pieces) == s
  {
    if |s| == 0 then [""]
    else
      var rest := Split(s[1..]);
      if s[0] == ' ' then
        assert ([""] + rest)[1..] == rest;
        [""] + rest
      else
        var pieces := [[s[0]] + rest[0]] + rest[1..];
        assert pieces[1..] == rest[1..];
        assert s == [s[0]] + s[1..];
        pieces
  }

  lemma {:induction false} SplitSpaceFree(w: string, r: string)
    requires ' ' !in w
    ensures Split(w + r) == [w + Split(r)[0]] + Split(r)[1..]
    decreases |w|
  {
    if w == [] {
      assert w + r == r;
      assert w + Split(r)[0] == Split(r)[0];
      assert [w + Split(r)[0]] + Split(r)[1..] == Split(r);
    } else {
      var s := w + r;
      assert s[0] == w[0] && s[1..] == w[1..] + r;
      SplitSpaceFree(w[1..], r);
      var rest := Split(s[1..]);
      assert rest == [w[1..] + Split(r)[0]] + Split(r)[1..];
      assert Split(s) == [[s[0]] + rest[0]] + rest[1..];
      assert [w[0]] + (w[1..] + Split(r)[0]) == w + Split(r)[0];
    }
  }

  /** Splitting undoes joining, as long as no piece contains a space. */
  lemma {:induction false} SplitJoin(pieces: seq<string>)
    requires |pieces| >= 1
    requires forall i :: 0 <= i < |pieces| ==> ' ' !in pieces[i]
    ensures Split(Join(pieces)) == pieces
    decreases |pieces|
  {
    if |pieces| == 1 {
      SplitSpaceFree(pieces[0], "");
      assert pieces[0] + "" == pieces[0];
    } else {
      var tail := Join(pieces[1..]);
      SplitJoin(pieces[1..]);
      assert Join(pieces) == pieces[0] + (" " + tail);
      SplitSpaceFree(pieces[0], " " + tail);
      assert (" " + tail)[1..] == tail;
      assert Split(" " + tail) == [""] + pieces[1..];
      assert pieces[0] + "" == pieces[0];
      assert pieces == [pieces[0]] + pieces[1..];
    }
  }
}

=== FILE: wrappers.dfy ===
/** Option and Result types shared by the account and task models. */
module Wrappers {

  /** A value that may be absent: a missing request field, a query with no match. */
  datatype Option<+T> = None | Some(value: T) {

    /** The wrapped value, or `default` when there is none. */
    function GetOr(default: T): T {
      match this
      case Some(v) => v
      case None => default
    }
  }

  /** The outcome of an operation that either yields a value or fails. */
  datatype Result<+R, +E> = Success(value: R) | Failure(error: E)
}
